=== FILE: README.md ===
# Rock-paper-scissors room coordinator

A model of the game server in `Unity-Server/app.js`: a global table `rooms`
from room id to room, six socket handlers that read and change it
(`createRoom`, `joinRoom`, `submitChoice`, `playerClicked`, `exitGame`,
`disconnect`), the delayed choice reset that `submitChoice` schedules, and
the pure round resolver `getResult`.

Each handler runs to completion on the single-threaded event loop, so each
is one pure function from the table, the sending connection and the
payload to a new table plus the messages sent, in order
(`Coordinator.Transition`). A message goes either to one connection
(`socket.emit`, `player.emit`, `io.to(socketId)`) or to a whole room
(`io.to(roomID)`); a room broadcast is taken to reach the room's current
players.

Modules:

- `Wrappers` — `Option` and `Result`.
- `Seqs` — distinctness and the order-keeping filter used by `disconnect`.
- `OrderedDict` — a plain JavaScript object used as a dictionary. Key order
  matters: `Object.keys(choices)` decides which submitter is told the
  result first, and an overwrite keeps a key in place.
- `Rules` — the three canonical choices, `getResult`, and an independent
  cyclic rule (`Beats`) that `getResult` is proved to agree with.
- `Rooms` — a room (`players` in push order, `choices` by socket id), the
  table, and the invariant the handlers keep. Every room has one or two
  players and only canonical choices.
- `Events` — the outbound events with their wire names and payloads.
- `Coordinator` — the handlers.
- `Gateway` — dispatch of inbound events, one step at a time or as a run.
- `Scenarios` — properties that link several handler runs.

The model follows the server's code, including where it does not serve what
the Unity client (`Assets/Scrips/GamePlay.cs`) is written to expect:

- No scores are kept. The client reads `myScore` and `opponentScore` from
  `gameResult` (GamePlay.cs:98-103), but the server never sends them. Every
  room gets an empty `scores` object that nothing ever reads or writes, so
  the model leaves it out.
- The server has no ready or rematch protocol. The client listens for
  `playerReady`, `waitingForOpponent` and `playerLeft` (GamePlay.cs:122-149);
  the server sends none of them. A `playAgain` event reaches no handler.
  The client has a sender for it (GamePlay.cs:244-249) that no button is
  wired to. Only `playerClicked` and the ten-second reset callback clear
  the choices; the client never sends `playerClicked`, so with this client
  the callback is the only thing that clears them.
- `joinRoom` appends the sender even if it is already a player.
- `joinRoom` reports its errors as the events `Not a ValidToken` and
  `roomFull`, not as `error`.
- `submitChoice` does not check that the sender is a player.
- Once a round is announced, the two choices stay stored until the reset
  callback or a `playerClicked` clears them. Until then, each further
  submission from either submitter announces the round again.
- `exitGame` deletes the whole room. Its notice is `player1Left` only when
  the payload's `player` field is exactly the number 1; otherwise it is
  `player2Left`.
- `disconnect` sends `player1Left` or `player2Left` to every room it does
  not delete, including rooms the sender never joined. The name depends
  only on how many players remain.
- The reset timer dereferences its room without checking that it still
  exists. If the room has been deleted, the callback throws a TypeError and
  the server process ends (`Coordinator.Fault`).

## Model

| member | source | states |
|---|---|---|
| OrderedDict.Keys | Unity-Server/app.js:67-68 | `Object.keys` lists exactly one key per stored entry |
| OrderedDict.Get | Unity-Server/app.js:69-70 | a lookup finds a value exactly when the key is listed by `Object.keys`, and the value found is the one stored under that key |
| OrderedDict.Put | Unity-Server/app.js:65 | assigning `choices[id]` makes the key read back the new value and leaves every other key's value unchanged; a present key keeps its position and the count, a new key is appended and raises the count by one; every resulting entry is an old one or the new pair; distinct keys stay distinct |
| OrderedDict.Delete | Unity-Server/app.js:120 | `delete choices[id]` makes the key absent and leaves every other key's value unchanged; the remaining keys are the old ones with that key filtered out, in their old order; no new entries appear; deleting an absent key changes nothing; deleting a present key lowers the count by one and keeps keys distinct |
| Rules.DrawIffEqual | Unity-Server/app.js:131-132 | `GetResult` (`getResult`) says DRAW exactly when the two choices are equal |
| Rules.ResultMatchesCycle | Unity-Server/app.js:131-137 | `GetResult` (`getResult`) says WIN exactly when the first choice beats the second on the cycle rock < paper < scissor < rock, and LOSE exactly when the choices differ and the first does not beat the second |
| Rules.ResultComplementary | Unity-Server/app.js:72-73 | for canonical choices `GetResult(b, a)` is the opposite of `GetResult(a, b)`, as the two `getResult` calls; for distinct choices exactly one side wins |
| Rules.NonCanonicalBothLose | Unity-Server/app.js:131-137 | under `GetResult`, two distinct strings, one of them not a canonical choice, both LOSE; complementarity needs the canonical guard of `submitChoice` |
| Seqs.Without | Unity-Server/app.js:119 | filtering out a connection keeps exactly the other players; the length drops by the number of occurrences of the connection; nothing changes when the connection was not a player |
| Seqs.WithoutAppend | Unity-Server/app.js:119 | filtering distributes over concatenation, drops the connection itself and keeps every other single element; so it keeps the other players in their order |
| Seqs.WithoutCount | Unity-Server/app.js:119 | filtering keeps every other element exactly as often as it occurred and removes every occurrence of the connection; the length drops by that number of occurrences |
| Seqs.WithoutEmptyIff | Unity-Server/app.js:119-121 | the filtered player list is empty exactly when every player was the leaving connection |
| Rooms.LeaveRoom | Unity-Server/app.js:118-120 | after leaving, the players are exactly the old players filtered by `Without`; the connection is neither a player nor a key of the choices; every other player and every other choice is kept, and the surviving choice keys keep their `Object.keys` order; a valid room that still has players stays valid |
| Rooms.LeaveRoomPlayers | Unity-Server/app.js:119-125 | the remaining players are the old ones less every occurrence of the leaving connection, and their number is the count that picks the notice; in a two-player room the other player alone remains |
| Coordinator.CreateRoom | Unity-Server/app.js:18-32 | an existing id leaves the table unchanged and sends `error` to the sender only; a fresh id adds exactly that room with players `[sender]` and no choices, and sends `playerSearching{1, roomID}` to the sender only; existing rooms are never overwritten; validity is kept |
| Coordinator.StartGames | Unity-Server/app.js:51-53 | one `startGame` per player in player order, the player at position i getting number i + 1 |
| Coordinator.JoinRoom | Unity-Server/app.js:34-55 | a missing room gives `Not a ValidToken` and a room with two or more players gives `roomFull`, each to the sender only with the table unchanged; otherwise the sender is appended, no room exceeds two players, the sender gets `playerSearching{2}` and the room `playersConnected`, and a join reaching two players sends `startGame` 1 to the first player and 2 to the second; no other room changes; validity is kept |
| Coordinator.RoundResultsAnnounce | Unity-Server/app.js:67-89 | with two distinct keys, `RoundResults` (the two `gameResult` emits) is one `gameResult` per key, the first key in `Object.keys` order first; each names the recipient's own stored choice, then the other's, and the result from the recipient's point of view |
| Coordinator.SubmitChoice | Unity-Server/app.js:57-90 | a missing room or a non-canonical choice sends `error` to the sender only and changes nothing; otherwise the sender's choice is stored by overwrite; players and every other choice are kept; a repeat sender keeps the key list and its place in it, and a new sender is appended as the last key, so the earlier submitter is told first; exactly two choices give a correct announcement to both keys, and any other count sends nothing; validity (canonical choices) is kept |
| Coordinator.PlayerClicked | Unity-Server/app.js:98-104 | an existing room keeps its players, has its choices emptied and is sent `playAgain`; a missing room is a no-op; no other room changes |
| Coordinator.ExitGame | Unity-Server/app.js:106-114 | an existing room id is removed entirely, every other room kept, and the room is sent `player1Left` when `player` is 1 and `player2Left` otherwise; a missing room is a no-op |
| Coordinator.DisconnectRoomsTable | Unity-Server/app.js:118-124 | `DisconnectRooms` (the `for...in` loop) over the visited rooms: a room is kept exactly when players remain after the filter, and then it is the room with the sender removed; unvisited rooms are untouched; no room appears |
| Coordinator.DisconnectRoomsNotices | Unity-Server/app.js:121-126 | every message of `DisconnectRooms` is a left notice to a visited room that is kept, for its remaining count |
| Coordinator.DisconnectRoomsNoticeOnce | Unity-Server/app.js:118-126 | `DisconnectRooms` sends no room two notices |
| Coordinator.DisconnectRoomsNotifiesKept | Unity-Server/app.js:124-126 | `DisconnectRooms` sends every visited room that is kept its left notice |
| Coordinator.Disconnect | Unity-Server/app.js:116-128 | the remaining rooms are exactly those with a player other than the sender; each is the old room without the sender in its players or choices; each remaining room, whether or not the sender was in it, gets exactly one left notice for its remaining count; validity is kept |
| Coordinator.ResetTimerFired | Unity-Server/app.js:91-94 | the delayed reset fails exactly when the room is gone; otherwise it empties that room's choices, keeps its players and every other room, and sends `gameReset` to the room |
| Gateway.Step | Unity-Server/app.js:15-129 | dispatching one inbound event fails only for a reset timer whose room is gone, keeps the table valid, and ignores event names with no registered handler |
| Gateway.Run | Unity-Server/app.js:15-129 | any run of events from a valid table that ends without a fault ends in a valid table |
| Scenarios.CreateThenJoinNumbersByJoinOrder | Unity-Server/app.js:18-55 | after A creates a fresh room and B joins it, the players are `[A, B]`, A holds `playerSearching` 1, and the join sends `playerSearching` 2 to B, `playersConnected` to the room, then `startGame` 1 to A and 2 to B |
| Scenarios.StartGameNumbersAreOneAndTwo | Unity-Server/app.js:49-53 | the `startGame` numbers of a completing join are exactly {1, 2}, and number n goes to the player in slot n |
| Scenarios.CreatorJoiningTwiceFillsRoom | Unity-Server/app.js:39-53 | a creator joining its own room fills it as `[A, A]` and is sent both `startGame` 1 and 2 |
| Scenarios.JoinNeverOverfills | Unity-Server/app.js:39-44 | if no room has more than two players, none has after a join |
| Scenarios.RepeatChoiceKeepsCount | Unity-Server/app.js:65 | a second submission from the same sender leaves the choice count as the first left it and holds the newer choice |
| Scenarios.ResubmissionAnnouncesAgain | Unity-Server/app.js:65-67 | with two choices stored, a further submission from either submitter announces the round again to both |
| Scenarios.StraySubmitterSilencesRounds | Unity-Server/app.js:59-67 | a third, new submitter raises the count to three and is sent nothing, and the next submission also sends nothing |
| Scenarios.AnnouncedResultsComplementary | Unity-Server/app.js:67-89 | in a valid table the two announced results are opposites, and DRAW exactly when both choices are equal |
| Scenarios.ClickedRoomStartsFresh | Unity-Server/app.js:98-101 | after `playerClicked`, the next valid submission leaves one stored choice and announces nothing |
| Scenarios.ExitedRoomIsGone | Unity-Server/app.js:106-113 | after `exitGame`, joining that id is refused with `Not a ValidToken`, and a pending reset timer for it faults |
| Scenarios.LastDisconnectDeletesRoom | Unity-Server/app.js:119-123 | a room whose only players are the disconnecting connection is deleted, and a later join on its id is refused with `Not a ValidToken` |
| Scenarios.DisconnectNotifiesBystanderRooms | Unity-Server/app.js:118-126 | a room the disconnecting connection was never in keeps its players and is still sent a left notice for its unchanged count |
| Scenarios.DisconnectDeletesExactlyEmptiedRooms | Unity-Server/app.js:118-126 | a room is deleted by a disconnect exactly when all its players were the sender |
| Scenarios.RoundFromInit | Unity-Server/app.js:18-89 | for any two canonical choices: A creates, B joins, A's choice announces nothing, and B's tells A first and B second, each `gameResult` naming the recipient's own choice first and the result `GetResult` gives from its side |
| Scenarios.RockBeatsScissorRound | Unity-Server/app.js:18-89 | in a fresh room A rock against B scissor: A's choice announces nothing, and B's gives A `gameResult{rock, scissor, WIN}` first and B `gameResult{scissor, rock, LOSE}` second, with the wire strings "WIN" and "LOSE" |
| Scenarios.TimerResetsAnnouncedRound | Unity-Server/app.js:57-94 | for any canonical choices: once B's choice announces the round in the room A and B opened, the reset callback succeeds, returns the table to the opened room `[A, B]` with no choices and sends `gameReset`; the next single choice then announces nothing |
| Scenarios.PaperPaperDraws | Unity-Server/app.js:57-89 | paper against paper gives both players DRAW |
| Scenarios.PlayAgainRequestIsIgnored | Assets/Scrips/GamePlay.cs:244-249 | a `playAgain` event (the client's sender for it is wired to no button) reaches no server handler: the table is unchanged and nothing is sent |

## Left out

- `Assets/Scrips/GamePlay.cs`, the Unity client (UI, the socket client, the locked main-thread action queue), is not part of this model. It is only cited for the event names it uses.
- Transport: `socket.join`, `socket.leave` and delivery by `io.to(...)`. A room broadcast is modelled as a `ToRoom` recipient that stands for the room's current players. Two consequences of the real transport room membership are not modelled: `exitGame` removes the sender from the transport room before broadcasting, so the sender does not get its own notice; and the other player stays subscribed to the room id after the room is deleted. Socket.io also addresses socket ids and room ids in one namespace, since every socket is in a room named by its own id: a room id chosen equal to another connection's id makes `ToConn` and `ToRoom` one recipient (for example `io.to(p1.id)` at app.js:78 would also reach that room's subscribers). The model keeps the two kinds of recipient apart.
- Express, the HTTP server, `server.listen`, CORS and all console logging: plumbing with no effect on the table.
- The ten-second delay of the reset timer. The callback is modelled as a separate event, `ResetTimerFired`, that can arrive at any later point. Timer ordering and several pending timers are not modelled.
- Armed timers are not tracked: a reset callback is admitted for any room at any time, even one that never announced a round. `Gateway.Run` therefore also covers runs JavaScript cannot produce; its validity property holds for them as well.
- Payload shapes: room ids, socket ids and choices are strings. Non-string or missing payload fields, and `null` payloads whose destructuring throws, are not modelled. `exitGame`'s `player` field is `Option<int>`. Any value other than the number 1 behaves like an absent field.
- Room ids that name inherited `Object.prototype` properties (`constructor`, `toString`, `__proto__`) look present to `!rooms[roomID]`. The model treats the table as a dictionary with no inherited keys.
- The enumeration order of `for (const roomID in rooms)` is a parameter of `disconnect` (`order`), required to list every room id once. JavaScript's rule (integer-like keys first, then insertion order) is not modelled.
- Coordinator.Disconnect: states that each remaining room gets exactly one left notice, not that the notices follow the enumeration order `order`.
- Coordinator.DisconnectRoomsNotices: states which notices are sent, not their order along `order`.
- Coordinator.DisconnectRoomsNoticeOnce: states that no room is notified twice, not the order of the notices.
- Coordinator.DisconnectRoomsNotifiesKept: states that each kept visited room is notified, not at which position.
- Coordinator.SubmitChoice: the correct-announcement clause is stated for well-formed choice dictionaries (distinct keys), which is every dictionary JavaScript can build.
- The `Fault` outcome ends a run. What a crashed process means for the other rooms (they are all lost) is not modelled.

=== FILE: coordinator.dfy ===
/** The six socket handlers of the server, each one atomic step from the
    room table to a new room table plus the messages emitted, in emission
    order. Handlers run to completion on the event loop, so nothing
    interleaves inside a step. */
module Coordinator {
  import opened Wrappers
  import opened Seqs
  import opened OrderedDict
  import opened Rules
  import opened Rooms
  import opened Events

  datatype Transition = Transition(rooms: State, out: seq<Message>)

  /** What the delayed reset callback can run into. */
  datatype Fault =
    /** Reading `.choices` of a deleted room throws a TypeError; uncaught in
        a timer callback it ends the server process. */
    | TypeError

  /** Every message goes to the sender alone. */
  predicate OnlyToSender(out: seq<Message>, sender: ConnId) {
    forall m :: m in out ==> m.to == ToConn(sender)
  }

  /** Every room other than `roomId` is kept as it was. */
  predicate OthersKept(s: State, s': State, roomId: RoomId) {
    forall id :: id in s && id != roomId ==> id in s' && s'[id] == s[id]
  }

  /** `createRoom(roomID)` */
  function CreateRoom(s: State, sender: ConnId, roomId: RoomId): (t: Transition)
    ensures roomId in s ==> t.rooms == s
    ensures t.rooms.Keys == s.Keys + {roomId}
    ensures forall id :: id in s ==> t.rooms[id] == s[id]
    ensures roomId !in s ==> t.rooms[roomId].players == [sender] && Size(t.rooms[roomId].choices) == 0
    ensures |t.out| == 1 && OnlyToSender(t.out, sender)
    ensures t.out[0].event == if roomId in s then Error(RoomExistsText) else PlayerSearching(1, roomId)
    ensures Valid(s) ==> Valid(t.rooms)
  {
    if roomId !in s then
      Transition(s[roomId := Room([sender], Empty())], [Message(ToConn(sender), PlayerSearching(1, roomId))])
    else
      Transition(s, [Message(ToConn(sender), Error(RoomExistsText))])
  }

  /** One `startGame` per player, numbered by position: `index + 1`. */
  function StartGames(players: seq<ConnId>, roomId: RoomId): (out: seq<Message>)
    ensures |out| == |players|
    ensures forall i :: 0 <= i < |out| ==> out[i] == Message(ToConn(players[i]), StartGame(i + 1, roomId))
  {
    seq(|players|, i requires 0 <= i < |players| => Message(ToConn(players[i]), StartGame(i + 1, roomId)))
  }

  /** `joinRoom(roomID)`. The sender is appended even if it is already a
      player of the room; the `playerSearching` number is always 2. */
  function JoinRoom(s: State, sender: ConnId, roomId: RoomId): (t: Transition)
    ensures roomId !in s ==> t.rooms == s && t.out == [Message(ToConn(sender), NotAValidToken(RoomMissingText))]
    ensures roomId in s && |s[roomId].players| >= 2 ==>
      t.rooms == s && t.out == [Message(ToConn(sender), RoomFull(RoomFullText))]
    ensures roomId !in s || |s[roomId].players| >= 2 ==>
      |t.out| == 1 && OnlyToSender(t.out, sender) && t.out[0].event.Name() in {"Not a ValidToken", "roomFull"}
    ensures t.rooms.Keys == s.Keys && OthersKept(s, t.rooms, roomId)
    ensures roomId in s && |s[roomId].players| < 2 ==>
      && t.rooms[roomId].players == s[roomId].players + [sender]
      && t.rooms[roomId].choices == s[roomId].choices
      && |t.rooms[roomId].players| <= 2
      && |t.out| >= 2
      && t.out[0] == Message(ToConn(sender), PlayerSearching(2, roomId))
      && t.out[1] == Message(ToRoom(roomId), PlayersConnected(roomId))
    ensures roomId in s && |s[roomId].players| == 1 ==>
      var p := t.rooms[roomId].players;
      && |t.out| == 4
      && t.out[2] == Message(ToConn(p[0]), StartGame(1, roomId))
      && t.out[3] == Message(ToConn(p[1]), StartGame(2, roomId))
    ensures roomId in s && |s[roomId].players| == 0 ==> |t.out| == 2
    ensures Valid(s) ==> Valid(t.rooms)
  {
    if roomId !in s then
      Transition(s, [Message(ToConn(sender), NotAValidToken(RoomMissingText))])
    else if |s[roomId].players| >= 2 then
      Transition(s, [Message(ToConn(sender), RoomFull(RoomFullText))])
    else
      var room := s[roomId].(players := s[roomId].players + [sender]);
      var announce := [Message(ToConn(sender), PlayerSearching(2, roomId)),
                       Message(ToRoom(roomId), PlayersConnected(roomId))];
      Transition(s[roomId := room],
                 announce + if |room.players| == 2 then StartGames(room.players, roomId) else [])
  }

  /** The two `gameResult` messages for a room whose choices have exactly two
      keys: the first key in enumeration order is told first. */
  function RoundResults(c: Dict<string>, roomId: RoomId): seq<Message>
    requires Size(c) == 2
  {
    var (id1, choice1) := c.entries[0];
    var (id2, choice2) := c.entries[1];
    [Message(ToConn(id1), GameResult(choice1, choice2, GetResult(choice1, choice2), roomId)),
     Message(ToConn(id2), GameResult(choice2, choice1, GetResult(choice2, choice1), roomId))]
  }

  /** A correct announcement of a two-choice round: one `gameResult` to each
      of the two keys of `c`, the first key in enumeration order first, each
      naming the recipient's own stored choice first and the other's second,
      with the result from the recipient's point of view. */
  ghost predicate AnnouncesRound(c: Dict<string>, roomId: RoomId, out: seq<Message>) {
    && |out| == 2
    && |Keys(c)| == 2
    && out[0].to == ToConn(Keys(c)[0])
    && out[1].to == ToConn(Keys(c)[1])
    && (forall m :: m in out ==>
          && m.to.ToConn?
          && m.event.GameResult?
          && m.event.roomId == roomId
          && Get(c, m.to.conn) == Some(m.event.myChoice)
          && m.event.result == GetResult(m.event.myChoice, m.event.opponentChoice))
    && out[0].to != out[1].to
    && (forall k :: k in Keys(c) <==> ToConn(k) == out[0].to || ToConn(k) == out[1].to)
    && out[0].event.myChoice == out[1].event.opponentChoice
    && out[1].event.myChoice == out[0].event.opponentChoice
  }

  lemma RoundResultsAnnounce(c: Dict<string>, roomId: RoomId)
    requires Wf(c) && Size(c) == 2
    ensures AnnouncesRound(c, roomId, RoundResults(c, roomId))
  {
    var rest := Dict(c.entries[1..]);
    WfTail(c);
    WfTail(rest);
    assert Keys(c) == [c.entries[0].0, c.entries[1].0];
    assert Get(c, c.entries[1].0) == Get(rest, c.entries[1].0);
  }

  /** `submitChoice({roomID, choice})`. Neither the sender's membership nor
      the number of rounds is checked: whenever the choices then have
      exactly two keys, the round is announced, again and again. */
  function SubmitChoice(s: State, sender: ConnId, roomId: RoomId, choice: string): (t: Transition)
    ensures roomId !in s || !IsChoice(choice) ==>
      t.rooms == s && t.out == [Message(ToConn(sender), Error(InvalidChoiceText))]
    ensures t.rooms.Keys == s.Keys && OthersKept(s, t.rooms, roomId)
    ensures roomId in s && IsChoice(choice) ==>
      var before := s[roomId].choices;
      var after := t.rooms[roomId].choices;
      && t.rooms[roomId].players == s[roomId].players
      && Get(after, sender) == Some(choice)
      && (forall c :: c != sender ==> Get(after, c) == Get(before, c))
      && (sender in Keys(before) ==> Keys(after) == Keys(before) && Size(after) == Size(before))
      && (sender !in Keys(before) ==> Keys(after) == Keys(before) + [sender] && Size(after) == Size(before) + 1)
      && (Wf(before) && Size(after) == 2 ==> AnnouncesRound(after, roomId, t.out))
      && (Size(after) != 2 ==> t.out == [])
    ensures Valid(s) ==> Valid(t.rooms)
  {
    if roomId !in s || !IsChoice(choice) then
      Transition(s, [Message(ToConn(sender), Error(InvalidChoiceText))])
    else
      var choices := Put(s[roomId].choices, sender, choice);
      var s' := s[roomId := s[roomId].(choices := choices)];
      var out := if Size(choices) == 2 then RoundResults(choices, roomId) else [];
      AnnounceIfPair(choices, roomId);
      assert s'[roomId].choices == choices && s'[roomId].players == s[roomId].players;
      assert |Keys(choices)| == Size(choices) && |Keys(s[roomId].choices)| == Size(s[roomId].choices);
      Transition(s', out)
  }

  /** `RoundResultsAnnounce` for whatever dictionary `submitChoice` ends
      up with, when it has exactly two distinct keys. */
  lemma AnnounceIfPair(c: Dict<string>, roomId: RoomId)
    ensures Wf(c) && Size(c) == 2 ==> AnnouncesRound(c, roomId, RoundResults(c, roomId))
  {
    if Wf(c) && Size(c) == 2 {
      RoundResultsAnnounce(c, roomId);
    }
  }

  /** `playerClicked({roomID})`: clears the room's choices for a new round. */
  function PlayerClicked(s: State, sender: ConnId, roomId: RoomId): (t: Transition)
    ensures roomId !in s ==> t.rooms == s && t.out == []
    ensures t.rooms.Keys == s.Keys && OthersKept(s, t.rooms, roomId)
    ensures roomId in s ==>
      && t.rooms[roomId].players == s[roomId].players
      && Size(t.rooms[roomId].choices) == 0
      && t.out == [Message(ToRoom(roomId), PlayAgain(roomId))]
    ensures Valid(s) ==> Valid(t.rooms)
  {
    if roomId in s then
      Transition(s[roomId := s[roomId].(choices := Empty())], [Message(ToRoom(roomId), PlayAgain(roomId))])
    else
      Transition(s, [])
  }

  /** `exitGame({roomID, player})`: the whole room goes, whoever sent it and
      whoever else is still in it. */
  function ExitGame(s: State, sender: ConnId, roomId: RoomId, player: Option<int>): (t: Transition)
    ensures roomId !in s ==> t.rooms == s && t.out == []
    ensures t.rooms.Keys == s.Keys - {roomId}
    ensures forall id :: id in t.rooms ==> t.rooms[id] == s[id]
    ensures roomId in s ==> t.out == [Message(ToRoom(roomId), ExitNotice(player))]
    ensures Valid(s) ==> Valid(t.rooms)
  {
    if roomId in s then
      Transition(s - {roomId}, [Message(ToRoom(roomId), ExitNotice(player))])
    else
      Transition(s, [])
  }

  /** The body of the `for (const roomID in rooms)` loop of `disconnect`,
      applied to the rooms of `order` one after another: the sender leaves
      the room, which is then deleted if no player remains and otherwise
      sent a left notice for the remaining count. */
  function DisconnectRooms(s: State, sender: ConnId, order: seq<RoomId>): Transition
    requires Distinct(order)
    requires forall id :: id in order ==> id in s
    decreases |order|
  {
    if |order| == 0 then Transition(s, [])
    else
      var id := order[0];
      DistinctTail(order);
      var room := LeaveRoom(s[id], sender);
      if |room.players| == 0 then
        DisconnectRooms(s - {id}, sender, order[1..])
      else
        var rest := DisconnectRooms(s[id := room], sender, order[1..]);
        Transition(rest.rooms, [Message(ToRoom(id), LeftNotice(|room.players|))] + rest.out)
  }

  lemma DistinctTail(order: seq<RoomId>)
    requires |order| > 0 && Distinct(order)
    ensures Distinct(order[1..]) && order[0] !in order[1..]
    ensures forall k :: k in order[1..] ==> k in order
  {
  }

  /** What the loop does to the table: visited rooms are kept exactly when
      players remain, and then hold the room with the sender removed;
      unvisited rooms are untouched; no room appears. */
  lemma {:induction false} DisconnectRoomsTable(s: State, sender: ConnId, order: seq<RoomId>)
    requires Distinct(order)
    requires forall id :: id in order ==> id in s
    ensures var t := DisconnectRooms(s, sender, order);
      && (forall id :: id in t.rooms ==> id in s)
      && (forall id :: id in s && id !in order ==> id in t.rooms && t.rooms[id] == s[id])
      && (forall id :: id in order ==> (id in t.rooms <==> |Without(s[id].players, sender)| > 0))
      && (forall id :: id in order && id in t.rooms ==> t.rooms[id] == LeaveRoom(s[id], sender))
    decreases |order|
  {
    if |order| > 0 {
      var id := order[0];
      DistinctTail(order);
      var room := LeaveRoom(s[id], sender);
      if |room.players| == 0 {
        DisconnectRoomsTable(s - {id}, sender, order[1..]);
      } else {
        DisconnectRoomsTable(s[id := room], sender, order[1..]);
      }
    }
  }

  /** What the loop sends: only left notices, each to a visited room that
      is kept and for its remaining count. */
  lemma {:induction false} DisconnectRoomsNotices(s: State, sender: ConnId, order: seq<RoomId>)
    requires Distinct(order)
    requires forall id :: id in order ==> id in s
    ensures var t := DisconnectRooms(s, sender, order);
      forall m :: m in t.out ==>
        && m.to.ToRoom?
        && m.to.room in order
        && m.to.room in t.rooms
        && m.event == LeftNotice(|t.rooms[m.to.room].players|)
    decreases |order|
  {
    DisconnectRoomsTable(s, sender, order);
    if |order| > 0 {
      var id := order[0];
      DistinctTail(order);
      var room := LeaveRoom(s[id], sender);
      var s' := if |room.players| == 0 then s - {id} else s[id := room];
      DisconnectRoomsTable(s', sender, order[1..]);
      DisconnectRoomsNotices(s', sender, order[1..]);
    }
  }

  /** No room is sent two left notices by one disconnect. */
  lemma {:induction false} DisconnectRoomsNoticeOnce(s: State, sender: ConnId, order: seq<RoomId>)
    requires Distinct(order)
    requires forall id :: id in order ==> id in s
    ensures var t := DisconnectRooms(s, sender, order);
      forall i, j :: 0 <= i < j < |t.out| ==> t.out[i].to != t.out[j].to
    decreases |order|
  {
    if |order| > 0 {
      var id := order[0];
      DistinctTail(order);
      var room := LeaveRoom(s[id], sender);
      var s' := if |room.players| == 0 then s - {id} else s[id := room];
      DisconnectRoomsNotices(s', sender, order[1..]);
      DisconnectRoomsNoticeOnce(s', sender, order[1..]);
      if |room.players| > 0 {
        var rest := DisconnectRooms(s', sender, order[1..]);
        assert forall m :: m in rest.out ==> m.to != ToRoom(id);
        RecipientsCons(Message(ToRoom(id), LeftNotice(|room.players|)), rest.out);
      }
    }
  }

  /** Putting a message to a fresh recipient in front of messages with
      distinct recipients keeps the recipients distinct. */
  lemma RecipientsCons(m: Message, rest: seq<Message>)
    requires forall k :: k in rest ==> k.to != m.to
    requires forall i, j :: 0 <= i < j < |rest| ==> rest[i].to != rest[j].to
    ensures var out := [m] + rest;
      forall i, j :: 0 <= i < j < |out| ==> out[i].to != out[j].to
  {
    var out := [m] + rest;
    forall i, j | 0 <= i < j < |out|
      ensures out[i].to != out[j].to
    {
      assert out[j] == rest[j - 1];
      if i > 0 {
        assert out[i] == rest[i - 1];
      }
    }
  }

  /** Every visited room that is kept is sent its left notice. */
  lemma {:induction false} DisconnectRoomsNotifiesKept(s: State, sender: ConnId, order: seq<RoomId>)
    requires Distinct(order)
    requires forall id :: id in order ==> id in s
    ensures var t := DisconnectRooms(s, sender, order);
      forall id :: id in order && id in t.rooms ==>
        Message(ToRoom(id), LeftNotice(|t.rooms[id].players|)) in t.out
    decreases |order|
  {
    DisconnectRoomsTable(s, sender, order);
    if |order| > 0 {
      var id := order[0];
      DistinctTail(order);
      var room := LeaveRoom(s[id], sender);
      var s' := if |room.players| == 0 then s - {id} else s[id := room];
      DisconnectRoomsTable(s', sender, order[1..]);
      DisconnectRoomsNotifiesKept(s', sender, order[1..]);
    }
  }

  /** `order` is the enumeration order of `for...in` over the table: every
      room id once. */
  predicate IsEnumeration(order: seq<RoomId>, s: State) {
    && Distinct(order)
    && (forall id :: id in order ==> id in s)
    && (forall id :: id in s ==> id in order)
  }

  /** `disconnect`: the sender leaves every room; rooms left without players
      are deleted, and every other room is sent a left notice, whether or
      not the sender was ever in it. */
  function Disconnect(s: State, sender: ConnId, order: seq<RoomId>): (t: Transition)
    requires IsEnumeration(order, s)
    ensures t.rooms.Keys == set id | id in s && |Without(s[id].players, sender)| > 0
    ensures forall id :: id in t.rooms ==> t.rooms[id] == LeaveRoom(s[id], sender)
    ensures forall id :: id in t.rooms ==>
      sender !in t.rooms[id].players && Get(t.rooms[id].choices, sender) == None
    ensures forall m :: m in t.out ==>
      m.to.ToRoom? && m.to.room in t.rooms && m.event == LeftNotice(|t.rooms[m.to.room].players|)
    ensures forall id :: id in t.rooms ==> Message(ToRoom(id), LeftNotice(|t.rooms[id].players|)) in t.out
    ensures forall i, j :: 0 <= i < j < |t.out| ==> t.out[i].to != t.out[j].to
    ensures Valid(s) ==> Valid(t.rooms)
  {
    DisconnectRoomsTable(s, sender, order);
    DisconnectRoomsNotices(s, sender, order);
    DisconnectRoomsNoticeOnce(s, sender, order);
    DisconnectRoomsNotifiesKept(s, sender, order);
    DisconnectRooms(s, sender, order)
  }

  /** The callback `submitChoice` schedules ten seconds after announcing a
      round: clears the room's choices and tells the room, or throws if the
      room has been deleted in the meantime. */
  function ResetTimerFired(s: State, roomId: RoomId): (r: Result<Transition, Fault>)
    ensures r.Failure? <==> roomId !in s
    ensures r.Success? ==>
      && r.value.rooms.Keys == s.Keys
      && OthersKept(s, r.value.rooms, roomId)
      && r.value.rooms[roomId].players == s[roomId].players
      && Size(r.value.rooms[roomId].choices) == 0
      && r.value.out == [Message(ToRoom(roomId), GameReset(ResetText))]
    ensures Valid(s) && r.Success? ==> Valid(r.value.rooms)
  {
    if roomId in s then
      Success(Transition(s[roomId := s[roomId].(choices := Empty())], [Message(ToRoom(roomId), GameReset(ResetText))]))
    else
      Failure(TypeError)
  }
}

=== FILE: events.dfy ===
/** The messages the server emits, and to whom. */
module Events {
  import opened Wrappers
  import opened Rules
  import opened Rooms

  /** `socket.emit` / `io.to(socketId)` address one connection;
      `io.to(roomID)` addresses the transport room of that id, which the
      model takes to be the room's current players. The two kinds are
      kept apart, although the transport names both in one namespace. */
  datatype Recipient = ToConn(conn: ConnId) | ToRoom(room: RoomId)

  /** Outbound events with their payloads. */
  datatype OutEvent =
    | PlayerSearching(playerNumber: int, roomId: RoomId)
    | PlayersConnected(roomId: RoomId)
    | StartGame(playerNumber: int, roomId: RoomId)
    | GameResult(myChoice: string, opponentChoice: string, result: Outcome, roomId: RoomId)
    | PlayAgain(roomId: RoomId)
    | GameReset(message: string)
    | Player1Left
    | Player2Left
    | Error(message: string)
    | NotAValidToken(message: string)
    | RoomFull(message: string)
  {
    /** The event name on the wire. */
    function Name(): string {
      match this
      case PlayerSearching(_, _) => "playerSearching"
      case PlayersConnected(_) => "playersConnected"
      case StartGame(_, _) => "startGame"
      case GameResult(_, _, _, _) => "gameResult"
      case PlayAgain(_) => "playAgain"
      case GameReset(_) => "gameReset"
      case Player1Left => "player1Left"
      case Player2Left => "player2Left"
      case Error(_) => "error"
      case NotAValidToken(_) => "Not a ValidToken"
      case RoomFull(_) => "roomFull"
    }
  }

  datatype Message = Message(to: Recipient, event: OutEvent)

  const RoomExistsText := "Room already exists"
  const RoomMissingText := "Room does not exist"
  const RoomFullText := "Room is full"
  const InvalidChoiceText := "Invalid room or choice"
  const ResetText := "Game has been reset"

  /** The notice `disconnect` sends to a room that still has players: the
      name depends only on how many remain. */
  function LeftNotice(remaining: int): OutEvent {
    if remaining == 1 then Player1Left else Player2Left
  }

  /** The notice `exitGame` sends: `player === 1` is true only for the
      number 1; an absent field (None) or any other value gives player2Left. */
  function ExitNotice(player: Option<int>): OutEvent {
    if player == Some(1) then Player1Left else Player2Left
  }
}

=== FILE: gateway.dfy ===
/** Dispatch of inbound socket events to the handlers. An event whose name
    the server registers no handler for is dropped by the transport; a
    "playAgain" event, for which the client has a sender that no button
    is wired to, is one of them. */
module Gateway {
  import opened Wrappers
  import opened Rooms
  import opened Events
  import opened Coordinator

  datatype Inbound =
    | CreateRoomEvent(roomId: RoomId)
    | JoinRoomEvent(roomId: RoomId)
    | SubmitChoiceEvent(roomId: RoomId, choice: string)
    | PlayerClickedEvent(roomId: RoomId)
    | ExitGameEvent(roomId: RoomId, player: Option<int>)
      /** The connection closed; `order` is the order `for...in` visits the table in. */
    | DisconnectEvent(order: seq<RoomId>)
      /** The ten-second reset timer armed by an announced round fires. */
    | ResetTimerEvent(roomId: RoomId)
    | UnhandledEvent(name: string)

  /** The event names the server registers a handler for. */
  const Registered: set<string> :=
    {"createRoom", "joinRoom", "submitChoice", "playerClicked", "exitGame", "disconnect"}

  predicate Admissible(s: State, e: Inbound) {
    && (e.DisconnectEvent? ==> IsEnumeration(e.order, s))
    && (e.UnhandledEvent? ==> e.name !in Registered)
  }

  /** One event, start to finish. Only a reset timer firing for a deleted
      room fails, and every successful step keeps the table valid. */
  function Step(s: State, sender: ConnId, e: Inbound): (r: Result<Transition, Fault>)
    requires Admissible(s, e)
    ensures r.Failure? <==> e.ResetTimerEvent? && e.roomId !in s
    ensures Valid(s) && r.Success? ==> Valid(r.value.rooms)
    ensures e.UnhandledEvent? ==> r == Success(Transition(s, []))
  {
    match e
    case CreateRoomEvent(id) => Success(CreateRoom(s, sender, id))
    case JoinRoomEvent(id) => Success(JoinRoom(s, sender, id))
    case SubmitChoiceEvent(id, choice) => Success(SubmitChoice(s, sender, id, choice))
    case PlayerClickedEvent(id) => Success(PlayerClicked(s, sender, id))
    case ExitGameEvent(id, player) => Success(ExitGame(s, sender, id, player))
    case DisconnectEvent(order) => Success(Disconnect(s, sender, order))
    case ResetTimerEvent(id) => ResetTimerFired(s, id)
    case UnhandledEvent(_) => Success(Transition(s, []))
  }

  /** A sequence of events from given senders, stopping at the first fault.
      A disconnect whose order is not an enumeration of the table at that
      point is not a run JavaScript can produce and yields None. */
  function Run(s: State, events: seq<(ConnId, Inbound)>): (r: Option<Result<State, Fault>>)
    ensures Valid(s) && r.Some? && r.value.Success? ==> Valid(r.value.value)
    decreases |events|
  {
    if |events| == 0 then Some(Success(s))
    else if !Admissible(s, events[0].1) then None
    else
      match Step(s, events[0].0, events[0].1)
      case Failure(f) => Some(Failure(f))
      case Success(t) => Run(t.rooms, events[1..])
  }
}

=== FILE: ordered_dict.dfy ===
/** The own properties of a plain JavaScript object used as a dictionary.
    `Object.keys` lists them in the order the keys were (re)created:
    assigning to a present key keeps its place, `delete` removes it, and
    a deleted key assigned again goes last.
    Keys are strings that never look like array indices (socket ids),
    so insertion order is the whole story. */
module OrderedDict {
  import opened Wrappers
  import opened Seqs

  datatype Dict<V> = Dict(entries: seq<(string, V)>)

  /** `{}` */
  function Empty<V>(): Dict<V> {
    Dict([])
  }

  /** `Object.keys(o)`, in enumeration order. */
  function Keys<V>(d: Dict<V>): (ks: seq<string>)
    ensures |ks| == |d.entries|
    decreases |d.entries|
  {
    if |d.entries| == 0 then [] else [d.entries[0].0] + Keys(Dict(d.entries[1..]))
  }

  /** `Object.keys(o).length` */
  function Size<V>(d: Dict<V>): nat {
    |d.entries|
  }

  /** A dictionary as JavaScript can build one: every key once. */
  predicate Wf<V>(d: Dict<V>) {
    Distinct(Keys(d))
  }

  /** `o[k]`, with `undefined` as None. */
  function Get<V>(d: Dict<V>, k: string): (r: Option<V>)
    ensures r.Some? <==> k in Keys(d)
    ensures r.Some? ==> (k, r.value) in d.entries
    decreases |d.entries|
  {
    if |d.entries| == 0 then None
    else if d.entries[0].0 == k then Some(d.entries[0].1)
    else Get(Dict(d.entries[1..]), k)
  }

  /** `o[k] = v`: overwrites in place, or appends a new key at the end. */
  function Put<V>(d: Dict<V>, k: string, v: V): (r: Dict<V>)
    ensures Get(r, k) == Some(v)
    ensures forall k' :: k' != k ==> Get(r, k') == Get(d, k')
    ensures k in Keys(d) ==> Keys(r) == Keys(d)
    ensures k !in Keys(d) ==> Keys(r) == Keys(d) + [k]
    ensures forall e :: e in r.entries ==> e in d.entries || e == (k, v)
    ensures Wf(d) ==> Wf(r)
    decreases |d.entries|
  {
    if |d.entries| == 0 then Dict([(k, v)])
    else if d.entries[0].0 == k then Dict([(k, v)] + d.entries[1..])
    else Dict([d.entries[0]] + Put(Dict(d.entries[1..]), k, v).entries)
  }

  /** `delete o[k]`: removes the key, keeps every other entry in order. */
  function Delete<V>(d: Dict<V>, k: string): (r: Dict<V>)
    ensures Get(r, k) == None
    ensures forall k' :: k' != k ==> Get(r, k') == Get(d, k')
    ensures forall e :: e in r.entries ==> e in d.entries
    ensures k !in Keys(d) ==> r == d
    ensures Wf(d) ==> Wf(r)
    ensures Wf(d) && k in Keys(d) ==> Size(r) == Size(d) - 1
    ensures Keys(r) == Without(Keys(d), k)
    decreases |d.entries|
  {
    if |d.entries| == 0 then d
    else
      var rest := Dict(d.entries[1..]);
      WfTail(d);
      if d.entries[0].0 == k then Delete(rest, k)
      else
        var r := Dict([d.entries[0]] + Delete(rest, k).entries);
        assert Dict(r.entries[1..]) == Delete(rest, k);
        assert Wf(d) ==> Get(Delete(rest, k), d.entries[0].0) == None;
        WfTail(r);
        r
  }

  /** A dictionary is well formed exactly when its tail is and its first
      key does not reappear in the tail. */
  lemma WfTail<V>(d: Dict<V>)
    requires |d.entries| > 0
    ensures Keys(d) == [d.entries[0].0] + Keys(Dict(d.entries[1..]))
    ensures Wf(d) <==> Wf(Dict(d.entries[1..])) && d.entries[0].0 !in Keys(Dict(d.entries[1..]))
  {
    var ks := Keys(Dict(d.entries[1..]));
    assert Keys(d)[0] == d.entries[0].0;
    if Wf(d) {
      forall i, j | 0 <= i < j < |ks|
        ensures ks[i] != ks[j]
      {
        assert ks[i] == Keys(d)[i + 1] && ks[j] == Keys(d)[j + 1];
      }
      forall i | 0 <= i < |ks|
        ensures ks[i] != d.entries[0].0
      {
        assert ks[i] == Keys(d)[i + 1];
      }
    }
  }
}

=== FILE: rooms.dfy ===
/** The global room table `rooms` and what every entry of it looks like. */
module Rooms {
  import opened Wrappers
  import opened Seqs
  import opened OrderedDict
  import opened Rules

  /** `socket.id` */
  type ConnId = string

  /** The client-supplied `roomID`. */
  type RoomId = string

  /** One value of the room table. `players` holds the sockets in the order
      they were pushed; `choices` maps a socket id to its submitted choice.
      The `scores` object created with every room is never read or written
      again, so it is not part of the model. */
  datatype Room = Room(players: seq<ConnId>, choices: Dict<string>)

  /** `rooms`, keyed by room id. */
  type State = map<RoomId, Room>

  /** The table before any client has connected. */
  const Init: State := map[]

  /** Every stored choice is one of the three canonical strings. */
  predicate AllChoices(d: Dict<string>) {
    forall e :: e in d.entries ==> IsChoice(e.1)
  }

  /** What the handlers keep true of every room: it has one or two players
      (a room is deleted the moment it would have none), and its choices
      are a well-formed dictionary of canonical choices. Players are not
      required to be distinct, and choices are not required to come from
      players: the handlers check neither. */
  predicate ValidRoom(r: Room) {
    && 1 <= |r.players| <= 2
    && Wf(r.choices)
    && AllChoices(r.choices)
  }

  predicate Valid(s: State) {
    forall id :: id in s ==> ValidRoom(s[id])
  }

  /** What `disconnect` does to one room: the connection leaves `players`
      and its choice is deleted. */
  function LeaveRoom(r: Room, conn: ConnId): (r': Room)
    ensures r'.players == Without(r.players, conn)
    ensures conn !in r'.players && Get(r'.choices, conn) == None
    ensures forall p :: p != conn ==> (p in r'.players <==> p in r.players)
    ensures forall c :: c != conn ==> Get(r'.choices, c) == Get(r.choices, c)
    ensures Keys(r'.choices) == Without(Keys(r.choices), conn)
    ensures ValidRoom(r) && |r'.players| > 0 ==> ValidRoom(r')
  {
    Room(Without(r.players, conn), Delete(r.choices, conn))
  }

  /** The players left after `disconnect` are the old ones less every
      occurrence of the leaving connection, the others in their old order;
      their number decides between player1Left and player2Left. */
  lemma LeaveRoomPlayers(r: Room, conn: ConnId)
    ensures multiset(LeaveRoom(r, conn).players) == multiset(r.players)[conn := 0]
    ensures |LeaveRoom(r, conn).players| == |r.players| - multiset(r.players)[conn]
    ensures forall other :: other != conn && r.players == [other, conn] ==> LeaveRoom(r, conn).players == [other]
    ensures forall other :: other != conn && r.players == [conn, other] ==> LeaveRoom(r, conn).players == [other]
  {
    WithoutCount(r.players, conn);
    if |r.players| == 2 {
      assert r.players == [r.players[0]] + [r.players[1]];
      WithoutAppend([r.players[0]], [r.players[1]], conn);
    }
  }
}

=== FILE: rules.dfy ===
/** The round resolver: `getResult` and the three canonical choices. */
module Rules {

  /** The only choices `submitChoice` stores. */
  predicate IsChoice(c: string) {
    c == "rock" || c == "paper" || c == "scissor"
  }

  /** The three strings `getResult` returns. */
  datatype Outcome = Win | Lose | Draw {

    /** The string sent as `result` in a `gameResult` payload. */
    function Name(): string {
      match this
      case Win => "WIN"
      case Lose => "LOSE"
      case Draw => "DRAW"
    }

    /** The outcome the opponent sees. */
    function Opposite(): Outcome {
      match this
      case Win => Lose
      case Lose => Win
      case Draw => Draw
    }
  }

  /** `getResult(myChoice, opponentChoice)`. It is total on all strings: an
      unknown string never wins, and loses against everything but itself. */
  function GetResult(myChoice: string, opponentChoice: string): Outcome {
    if myChoice == opponentChoice then Draw
    else if myChoice == "rock" && opponentChoice == "scissor" then Win
    else if myChoice == "paper" && opponentChoice == "rock" then Win
    else if myChoice == "scissor" && opponentChoice == "paper" then Win
    else Lose
  }

  /** Position of a canonical choice on the cycle rock -> paper -> scissor,
      each beating the one before it. */
  function Rank(c: string): int
    requires IsChoice(c)
  {
    if c == "rock" then 0 else if c == "paper" then 1 else 2
  }

  /** Independent reference rule: a beats b when a is one step after b
      on the cycle. */
  predicate Beats(a: string, b: string) {
    IsChoice(a) && IsChoice(b) && (Rank(a) - Rank(b) + 3) % 3 == 1
  }

  /** Equal choices, and only equal ones, draw. */
  lemma DrawIffEqual(a: string, b: string)
    ensures GetResult(a, b) == Draw <==> a == b
  {
  }

  /** `getResult` agrees with the cyclic rule on every pair of strings. */
  lemma ResultMatchesCycle(a: string, b: string)
    ensures GetResult(a, b) == Win <==> Beats(a, b)
    ensures GetResult(a, b) == Lose <==> a != b && !Beats(a, b)
  {
  }

  /** For canonical choices the two views of a round are complementary:
      never both WIN, never both LOSE, DRAW together. */
  lemma ResultComplementary(a: string, b: string)
    requires IsChoice(a) && IsChoice(b)
    ensures GetResult(b, a) == GetResult(a, b).Opposite()
    ensures a != b ==> (GetResult(a, b) == Win) != (GetResult(b, a) == Win)
  {
  }

  /** Why the canonical guard matters: two distinct strings of which one is
      not a canonical choice both LOSE. */
  lemma NonCanonicalBothLose(a: string, b: string)
    requires a != b && !(IsChoice(a) && IsChoice(b))
    ensures GetResult(a, b) == Lose && GetResult(b, a) == Lose
  {
  }
}

=== FILE: scenarios.dfy ===
/** Properties that relate several handler runs: join order and player
    numbers, repeated and stray submissions, complementary results, and
    what is left after a room goes away. */
module Scenarios {
  import opened Wrappers
  import opened Seqs
  import opened OrderedDict
  import opened Rules
  import opened Rooms
  import opened Events
  import opened Coordinator
  import opened Gateway

  /** A creates a fresh room and B joins it: B is told it is player 2, the
      room hears of the pairing, and then A gets `startGame` 1 and B gets
      `startGame` 2, in join order. */
  lemma CreateThenJoinNumbersByJoinOrder(s: State, a: ConnId, b: ConnId, id: RoomId)
    requires id !in s
    ensures var t1 := CreateRoom(s, a, id);
            var t2 := JoinRoom(t1.rooms, b, id);
            && t1.out == [Message(ToConn(a), PlayerSearching(1, id))]
            && t2.rooms[id].players == [a, b]
            && t2.out == [Message(ToConn(b), PlayerSearching(2, id)),
                          Message(ToRoom(id), PlayersConnected(id)),
                          Message(ToConn(a), StartGame(1, id)),
                          Message(ToConn(b), StartGame(2, id))]
  {
  }

  /** The player numbers a completing join hands out are exactly 1 and 2,
      one per player slot, the earlier slot getting 1. */
  lemma StartGameNumbersAreOneAndTwo(s: State, sender: ConnId, id: RoomId)
    requires id in s && |s[id].players| == 1
    ensures var t := JoinRoom(s, sender, id);
            && (set m | m in t.out && m.event.StartGame? :: m.event.playerNumber) == {1, 2}
            && (forall m :: m in t.out && m.event.StartGame? ==>
                  m.to == ToConn(t.rooms[id].players[m.event.playerNumber - 1]))
  {
    var t := JoinRoom(s, sender, id);
    assert t.out[2].event.StartGame? && t.out[3].event.StartGame?;
    assert !t.out[0].event.StartGame? && !t.out[1].event.StartGame?;
    assert forall m :: m in t.out ==> m == t.out[0] || m == t.out[1] || m == t.out[2] || m == t.out[3];
    assert t.out[2].event.playerNumber == 1 && t.out[3].event.playerNumber == 2;
  }

  /** Joining is not checked against membership: a creator that joins its
      own room fills it and is sent both `startGame` numbers. */
  lemma CreatorJoiningTwiceFillsRoom(s: State, a: ConnId, id: RoomId)
    requires id !in s
    ensures var t := JoinRoom(CreateRoom(s, a, id).rooms, a, id);
            && t.rooms[id].players == [a, a]
            && Message(ToConn(a), StartGame(1, id)) in t.out
            && Message(ToConn(a), StartGame(2, id)) in t.out
  {
    var t := JoinRoom(CreateRoom(s, a, id).rooms, a, id);
    assert t.out[2] == Message(ToConn(a), StartGame(1, id));
    assert t.out[3] == Message(ToConn(a), StartGame(2, id));
  }

  /** No join ever takes a room past two players. */
  lemma JoinNeverOverfills(s: State, sender: ConnId, id: RoomId)
    requires forall k :: k in s ==> |s[k].players| <= 2
    ensures var t := JoinRoom(s, sender, id);
            forall k :: k in t.rooms ==> |t.rooms[k].players| <= 2
  {
  }

  /** A repeated submission from the same sender overwrites its choice and
      leaves the count of choices where the first one put it. */
  lemma RepeatChoiceKeepsCount(s: State, a: ConnId, id: RoomId, first: string, second: string)
    requires id in s && IsChoice(first) && IsChoice(second)
    ensures var t1 := SubmitChoice(s, a, id, first);
            var t2 := SubmitChoice(t1.rooms, a, id, second);
            && Size(t2.rooms[id].choices) == Size(t1.rooms[id].choices)
            && Get(t2.rooms[id].choices, a) == Some(second)
  {
  }

  /** Once a round is announced the count stays at two, so any further
      submission from either submitter announces the round again. */
  lemma ResubmissionAnnouncesAgain(s: State, sender: ConnId, id: RoomId, choice: string)
    requires Valid(s) && id in s && IsChoice(choice)
    requires Size(s[id].choices) == 2 && sender in Keys(s[id].choices)
    ensures var t := SubmitChoice(s, sender, id, choice);
            && |t.out| == 2
            && AnnouncesRound(t.rooms[id].choices, id, t.out)
  {
  }

  /** A third distinct submitter (the handler does not ask whether it is a
      player) raises the count to three; from then on no submission
      announces anything until the choices are cleared. */
  lemma StraySubmitterSilencesRounds(s: State, stray: ConnId, other: ConnId, id: RoomId, c1: string, c2: string)
    requires Valid(s) && id in s && IsChoice(c1) && IsChoice(c2)
    requires Size(s[id].choices) == 2 && stray !in Keys(s[id].choices)
    ensures var t1 := SubmitChoice(s, stray, id, c1);
            var t2 := SubmitChoice(t1.rooms, other, id, c2);
            && Size(t1.rooms[id].choices) == 3
            && t1.out == []
            && t2.out == []
  {
    var t1 := SubmitChoice(s, stray, id, c1);
    assert Size(t1.rooms[id].choices) == 3;
    assert Size(SubmitChoice(t1.rooms, other, id, c2).rooms[id].choices) >= 3;
  }

  /** In a valid table, an announced round tells the two submitters
      complementary results: never both WIN, never both LOSE, DRAW exactly
      when the two choices are equal. */
  lemma AnnouncedResultsComplementary(s: State, sender: ConnId, id: RoomId, choice: string)
    requires Valid(s) && id in s && IsChoice(choice)
    requires Size(SubmitChoice(s, sender, id, choice).rooms[id].choices) == 2
    ensures var t := SubmitChoice(s, sender, id, choice);
            && |t.out| == 2
            && t.out[1].event.result == t.out[0].event.result.Opposite()
            && (t.out[0].event.result == Draw <==> t.out[0].event.myChoice == t.out[1].event.myChoice)
  {
    var t := SubmitChoice(s, sender, id, choice);
    var c := t.rooms[id].choices;
    assert t.out[0] in t.out && t.out[1] in t.out;
    var mine := t.out[0].event.myChoice;
    var theirs := t.out[1].event.myChoice;
    assert (t.out[0].to.conn, mine) in c.entries;
    assert (t.out[1].to.conn, theirs) in c.entries;
    ResultComplementary(mine, theirs);
    DrawIffEqual(mine, theirs);
  }

  /** After `playerClicked` the next submission starts a fresh count of one
      and announces nothing. */
  lemma ClickedRoomStartsFresh(s: State, clicker: ConnId, a: ConnId, id: RoomId, choice: string)
    requires id in s && IsChoice(choice)
    ensures var t1 := PlayerClicked(s, clicker, id);
            var t2 := SubmitChoice(t1.rooms, a, id, choice);
            Size(t2.rooms[id].choices) == 1 && t2.out == []
  {
  }

  /** A room removed by `exitGame` is gone: a later join is told the token
      is not valid, and a pending reset timer for it crashes. */
  lemma ExitedRoomIsGone(s: State, a: ConnId, b: ConnId, id: RoomId, player: Option<int>)
    requires id in s
    ensures var t := ExitGame(s, a, id, player);
            && JoinRoom(t.rooms, b, id).out == [Message(ToConn(b), NotAValidToken(RoomMissingText))]
            && ResetTimerFired(t.rooms, id) == Failure(TypeError)
  {
  }

  /** When the last player of a room disconnects the room is deleted, and a
      later join on its id is refused as not valid. */
  lemma LastDisconnectDeletesRoom(s: State, a: ConnId, b: ConnId, id: RoomId, order: seq<RoomId>)
    requires IsEnumeration(order, s)
    requires id in s && forall p :: p in s[id].players ==> p == a
    ensures var t := Disconnect(s, a, order);
            && id !in t.rooms
            && JoinRoom(t.rooms, b, id).out == [Message(ToConn(b), NotAValidToken(RoomMissingText))]
  {
    WithoutEmptyIff(s[id].players, a);
  }

  /** `disconnect` also notifies rooms the sender was never part of: such a
      room keeps all its players and is sent the notice for its unchanged
      player count (player2Left for a full room). */
  lemma DisconnectNotifiesBystanderRooms(s: State, sender: ConnId, order: seq<RoomId>, id: RoomId)
    requires IsEnumeration(order, s)
    requires id in s && |s[id].players| > 0 && sender !in s[id].players
    ensures var t := Disconnect(s, sender, order);
            && id in t.rooms
            && t.rooms[id].players == s[id].players
            && Message(ToRoom(id), LeftNotice(|s[id].players|)) in t.out
  {
  }

  /** A room is deleted by `disconnect` exactly when all its players were the
      sender, and every remaining room loses the sender. */
  lemma DisconnectDeletesExactlyEmptiedRooms(s: State, sender: ConnId, order: seq<RoomId>, id: RoomId)
    requires IsEnumeration(order, s) && id in s
    ensures var t := Disconnect(s, sender, order);
            id !in t.rooms <==> forall p :: p in s[id].players ==> p == sender
  {
    WithoutEmptyIff(s[id].players, sender);
  }

  /** A creates "r1" and B joins: one room holding `[A, B]` and no choices. */
  lemma OpenRoom()
    ensures JoinRoom(CreateRoom(Init, "A", "r1").rooms, "B", "r1").rooms
            == map["r1" := Room(["A", "B"], Empty())]
  {
    assert CreateRoom(Init, "A", "r1").rooms == map["r1" := Room(["A"], Empty())];
    assert ["A"] + ["B"] == ["A", "B"];
  }

  /** In that room, A's choice alone is stored and announces nothing. */
  lemma FirstChoice(c: string)
    requires IsChoice(c)
    ensures var t := SubmitChoice(map["r1" := Room(["A", "B"], Empty())], "A", "r1", c);
            t.rooms == map["r1" := Room(["A", "B"], Dict([("A", c)]))] && t.out == []
  {
  }

  /** B's choice then completes the round: A's key comes first. */
  lemma SecondChoice(c: string, d: string)
    requires IsChoice(c) && IsChoice(d)
    ensures var t := SubmitChoice(map["r1" := Room(["A", "B"], Dict([("A", c)]))], "B", "r1", d);
            && t.rooms == map["r1" := Room(["A", "B"], Dict([("A", c), ("B", d)]))]
            && t.out == [Message(ToConn("A"), GameResult(c, d, GetResult(c, d), "r1")),
                         Message(ToConn("B"), GameResult(d, c, GetResult(d, c), "r1"))]
  {
    assert Put(Dict([("A", c)]), "B", d) == Dict([("A", c), ("B", d)]);
  }

  /** A creates "r1", B joins, A chooses c and B chooses d: A's choice
      alone announces nothing, and B's tells A first and B second, each
      seeing its own choice first. */
  lemma RoundFromInit(c: string, d: string)
    requires IsChoice(c) && IsChoice(d)
    ensures var t1 := CreateRoom(Init, "A", "r1");
            var t2 := JoinRoom(t1.rooms, "B", "r1");
            var t3 := SubmitChoice(t2.rooms, "A", "r1", c);
            var t4 := SubmitChoice(t3.rooms, "B", "r1", d);
            && t3.out == []
            && t4.out == [Message(ToConn("A"), GameResult(c, d, GetResult(c, d), "r1")),
                          Message(ToConn("B"), GameResult(d, c, GetResult(d, c), "r1"))]
  {
    OpenRoom();
    var t2 := JoinRoom(CreateRoom(Init, "A", "r1").rooms, "B", "r1");
    FirstChoice(c);
    var t3 := SubmitChoice(t2.rooms, "A", "r1", c);
    assert t3.rooms == map["r1" := Room(["A", "B"], Dict([("A", c)]))];
    SecondChoice(c, d);
  }

  /** A full round: A creates "r1", B joins, A plays rock, B plays scissor.
      A is told WIN and B is told LOSE, each seeing its own choice first. */
  lemma RockBeatsScissorRound()
    ensures var a, b := "A", "B";
            var t1 := CreateRoom(Init, a, "r1");
            var t2 := JoinRoom(t1.rooms, b, "r1");
            var t3 := SubmitChoice(t2.rooms, a, "r1", "rock");
            var t4 := SubmitChoice(t3.rooms, b, "r1", "scissor");
            && t3.out == []
            && t4.out == [Message(ToConn(a), GameResult("rock", "scissor", Win, "r1")),
                          Message(ToConn(b), GameResult("scissor", "rock", Lose, "r1"))]
            && t4.out[0].event.result.Name() == "WIN"
            && t4.out[1].event.result.Name() == "LOSE"
  {
    RoundFromInit("rock", "scissor");
  }

  /** The reset callback on the room after its round: the room as opened. */
  lemma ResetPlayedRoom(c: string, d: string)
    ensures var t := ResetTimerFired(map["r1" := Room(["A", "B"], Dict([("A", c), ("B", d)]))], "r1");
            t.Success? && t.value.rooms == map["r1" := Room(["A", "B"], Empty())]
  {
    var m4 := map["r1" := Room(["A", "B"], Dict([("A", c), ("B", d)]))];
    assert m4["r1" := m4["r1"].(choices := Empty())] == map["r1" := Room(["A", "B"], Empty())];
  }

  /** Once B's choice has announced a round in the room A and B opened,
      the reset callback leaves the room as `OpenRoom` made it, with no
      choices, and tells the room; a single new choice then announces
      nothing. */
  lemma TimerResetsAnnouncedRound(c: string, d: string, e: string)
    requires IsChoice(c) && IsChoice(d) && IsChoice(e)
    ensures var t4 := SubmitChoice(map["r1" := Room(["A", "B"], Dict([("A", c)]))], "B", "r1", d);
            var t5 := ResetTimerFired(t4.rooms, "r1");
            && |t4.out| == 2
            && t5.Success?
            && t5.value.rooms == map["r1" := Room(["A", "B"], Empty())]
            && t5.value.out[0].event.Name() == "gameReset"
            && SubmitChoice(t5.value.rooms, "A", "r1", e).out == []
  {
    SecondChoice(c, d);
    ResetPlayedRoom(c, d);
    FirstChoice(e);
  }

  /** Both players choose paper: both are told DRAW. */
  lemma PaperPaperDraws()
    ensures var a, b := "A", "B";
            var t1 := CreateRoom(Init, a, "r1");
            var t2 := JoinRoom(t1.rooms, b, "r1");
            var t3 := SubmitChoice(t2.rooms, a, "r1", "paper");
            var t4 := SubmitChoice(t3.rooms, b, "r1", "paper");
            t4.out == [Message(ToConn(a), GameResult("paper", "paper", Draw, "r1")),
                       Message(ToConn(b), GameResult("paper", "paper", Draw, "r1"))]
  {
    RoundFromInit("paper", "paper");
  }

  /** A "playAgain" event (the client has a sender for it that no button
      is wired to) reaches no handler: nothing changes and nothing is sent. */
  lemma PlayAgainRequestIsIgnored(s: State, sender: ConnId)
    ensures Step(s, sender, UnhandledEvent("playAgain")) == Success(Transition(s, []))
  {
  }
}

=== FILE: seqs.dfy ===
/** Sequence helpers shared by the room table and the dictionary model. */
module Seqs {

  /** No element occurs twice. */
  predicate Distinct<T(==)>(s: seq<T>) {
    forall i, j :: 0 <= i < j < |s| ==> s[i] != s[j]
  }

  /** How often `x` occurs in `s`. */
  function Occurrences(s: seq<string>, x: string): nat
    decreases |s|
  {
    if |s| == 0 then 0 else (if s[0] == x then 1 else 0) + Occurrences(s[1..], x)
  }

  /** `s.filter((y) => y !== x)` over ids: every element other than `x`, in order. */
  function Without(s: seq<string>, x: string): (r: seq<string>)
    ensures forall y :: y in r <==> y in s && y != x
    ensures |r| == |s| - Occurrences(s, x)
    ensures x !in s ==> r == s
    decreases |s|
  {
    if |s| == 0 then []
    else if s[0] == x then
      assert s == [s[0]] + s[1..];
      Without(s[1..], x)
    else
      assert s == [s[0]] + s[1..];
      [s[0]] + Without(s[1..], x)
  }

  /** Filtering works piece by piece, so it keeps the relative order of
      what it keeps. Together with the one-element cases this fixes the
      result completely. */
  lemma {:induction false} WithoutAppend(a: seq<string>, b: seq<string>, x: string)
    ensures Without(a + b, x) == Without(a, x) + Without(b, x)
    ensures Without([x], x) == []
    ensures forall y :: y != x ==> Without([y], x) == [y]
    decreases |a|
  {
    if |a| == 0 {
      assert a + b == b;
    } else {
      assert (a + b)[1..] == a[1..] + b;
      WithoutAppend(a[1..], b, x);
    }
  }

  /** Filtering removes every occurrence of `x` and keeps every other
      element as often as it occurred, so the remaining count is the old
      count less the occurrences of `x`. */
  lemma {:induction false} WithoutCount(s: seq<string>, x: string)
    ensures multiset(Without(s, x)) == multiset(s)[x := 0]
    ensures |Without(s, x)| == |s| - multiset(s)[x]
    decreases |s|
  {
    if |s| > 0 {
      assert s == [s[0]] + s[1..];
      WithoutCount(s[1..], x);
    }
  }

  /** Filtering out `x` empties the sequence exactly when every element
      is `x`. */
  lemma WithoutEmptyIff(s: seq<string>, x: string)
    ensures |Without(s, x)| == 0 <==> forall y :: y in s ==> y == x
  {
    var w := Without(s, x);
    if |w| > 0 {
      assert w[0] in w;
    }
  }
}

=== FILE: wrappers.dfy ===
/** Option and Result, the two failure-carrying datatypes the model uses. */
module Wrappers {

  datatype Option<+T> = None | Some(value: T)

  datatype Result<+R, +E> = Success(value: R) | Failure(error: E)
}
